=== FILE: README.md ===
# playlistify core, modelled in Dafny

playlistify copies the audio tracks posted in a Telegram channel into a
Spotify playlist. This project models its two core paths:

- **The playlist tool** (`functions.py`).
  - The fetch step sorts the channel's music messages by id. It scans each
    document's attribute list and keeps a `{title, artist}` entry, keyed by
    `str(msg.id)`, for every message whose last audio attribute has a
    non-empty title and performer.
  - `set_playlist_tracks` builds one `"title - artist"` query per entry. It
    then clears the playlist of the tracks one listing call returned. For
    each query it keeps the top search hit's URI when the lower-cased
    similarity ratio reaches `SIMILARITY_THRESHOLD` (0.6, `config.py`).
    Finally it adds the kept URIs in batches of at most 100.
- **The standalone scraper** (`music_scraper.py`). It covers the
  channel-username prompt, the per-message metadata record, the scanning loop
  with its message and audio counters, the structured output document, and
  the summary counts.

Files:

- `wrappers.dfy`: the `Option` type.
- `text.dfy`: the Python string operations the code relies on: `strip()`,
  `lower()` (on ASCII letters), `sub in s`, `sep.join`, `str(int)`. It also
  has an ASCII `Upper`, which the code never calls. It is used only to state
  that the similarity score ignores ASCII case.
- `telegram.dfy`: the Telegram values the code reads (message, media,
  document, attribute). It also holds the "last attribute carrying a field
  wins" functions that both attribute loops are proved against.
- `music_fetch.dfy`: the fetch loop and the insertion-ordered `musics`
  dictionary.
- `playlist_sync.dfy`: queries, matching, batching, and the `Playlist` class
  whose methods stand for the modifying Spotify calls.
- `music_scraper.dfy`: the scraper.

The network clients are not modelled. Their answers reach the model as inputs:

- the fetched messages;
- the playlist listing;
- the search endpoint, a function `string -> seq<Track>`;
- the difflib ratio, a function `(string, string) -> real`.

Some facts about the code that the model keeps:

- A document counts as audio when its MIME type contains `audio` anywhere.
  This is a substring test (music_scraper.py:117-118).
- The playlist is named `t.me/<username>` (functions.py:78).
- The scraper keeps the records in the order the message iterator yields
  them (music_scraper.py:110, 173).
- The search loop runs over the queries in order, one search each, and
  never retries. An error from a search call propagates
  (functions.py:128-148). That error path is not modelled.

## Model

| member | source | states |
|---|---|---|
| Text.Truthy | functions.py:48 | Python truthiness of an optional string, as in `title and performer`, `not CHANNEL_USERNAME` (music_scraper.py:39), `message.text or ''` (music_scraper.py:133) and the summary tests (music_scraper.py:218-220): neither `None` nor `""` |
| Text.IsSpace | music_scraper.py:45 | the characters `strip()` removes: exactly those for which Python's `str.isspace()` holds (ASCII tab to carriage return, the separators `\x1c`-`\x1f`, space, `\x85`, `\xa0` and the Unicode space separators) |
| Text.TrimLeft | music_scraper.py:45 | leading part of `strip()`: the result is a suffix of the input, everything cut is whitespace, and the result starts with a non-space |
| Text.TrimRight | music_scraper.py:45 | trailing part of `strip()`: the result is a prefix, everything cut is whitespace, and the result ends with a non-space |
| Text.Strip | music_scraper.py:45 | `str.strip()`: the result is no longer than the input and neither starts nor ends with whitespace |
| Text.Lower | functions.py:125 | `str.lower()` on ASCII letters: same length, each character lower-cased on its own |
| Text.StripEmptyIff | music_scraper.py:45-46 | the stripped line is empty iff every character is whitespace |
| Text.LowerIdempotent | functions.py:125 | `lower()` of a lower-cased string changes nothing |
| Text.LowerOfUpper | functions.py:125 | on ASCII letters, `lower(upper(s)) == lower(s)` |
| Text.Contains | music_scraper.py:117-118 | `sub in s` holds iff `sub` occurs at some position of `s` |
| Text.Join | functions.py:136 | `sep.join(parts)`: empty for no parts, and it starts with the first part |
| Text.JoinSnoc | functions.py:136 | `", ".join` puts the parts in order, separated: joining one more part appends the separator and the part |
| Text.NatDigits | functions.py:51 | `str(n)` of a natural is non-empty and all decimal digits |
| Text.DecimalString | functions.py:51 | `str(n)`, a minus sign then the digits of `-n` for negatives; its meaning is fixed by the round-trip lemma below |
| Text.DecimalRoundTrip | functions.py:51 | `int(str(n)) == n` |
| Text.DecimalInjective | functions.py:51 | `str(a) == str(b)` iff `a == b`, so keying `musics` by `str(msg.id)` keys by id |
| Telegram.LastAudio | functions.py:41-44 | the attribute the scan takes title and performer from is an audio attribute of the list |
| Telegram.LastFileName | functions.py:39-40 | the file name comes from a file-name attribute of the list; `None` only when the list has none |
| Telegram.TitleOf | functions.py:41-42 | a title, when present, is that of an audio attribute of the list |
| Telegram.PerformerOf | functions.py:43-44 | a performer, when present, is that of an audio attribute of the list |
| Telegram.DurationOf | music_scraper.py:147 | the duration the scraper's attribute loop settles on: that of the last audio attribute, `None` without one |
| Telegram.LastAudioIsLastCarrier | functions.py:41-44 | an audio attribute followed by no other audio attribute is the one whose title and performer win |
| Telegram.LastAudioPresence | functions.py:41-44 | some attribute supplies a title exactly when the list holds an audio attribute |
| Telegram.LastFileNameIsLastCarrier | functions.py:39-40 | a file-name attribute followed by no other one supplies the file name |
| Telegram.NoFileNameCarrier | functions.py:34-40 | without a file-name attribute the file name stays `None` |
| MusicFetch.InsertById | functions.py:26 | inserting a message into an id-sorted list keeps it sorted and adds exactly that message |
| MusicFetch.SortById | functions.py:26 | `sorted(messages, key=id)` is sorted by id and a permutation of the input |
| MusicFetch.SortKeepsMessages | functions.py:26 | sorting neither adds nor drops a message |
| MusicFetch.HasFileName | functions.py:39 | `hasattr(attr, 'file_name')` holds exactly of a file-name attribute |
| MusicFetch.HasTitle | functions.py:41 | `hasattr(attr, 'title')` holds exactly of an audio attribute: only audio attributes carry a title |
| MusicFetch.HasPerformer | functions.py:43 | `hasattr(attr, 'performer')` holds exactly of an audio attribute: only audio attributes carry a performer |
| MusicFetch.ScanAttributes | functions.py:34-44 | the attribute loop ends with the file name of the last file-name attribute and the title and performer of the last audio attribute |
| MusicFetch.MusicOf | functions.py:32-54 | a message yields an entry only when it has a document; the entry has the message id, a non-empty title and artist, its `title` is the document's `TitleOf` and its `artist` the document's `PerformerOf` |
| MusicFetch.MusicOfSpec | functions.py:32-54 | a message yields an entry iff it has a document whose last audio attribute has a non-empty title and performer; the entry carries the message id, that attribute's title as `title` and its performer as `artist` |
| MusicFetch.Put | functions.py:51-54 | `musics[key] = value`: the new entry is present, nothing else is added, entries under other keys stay, at most one entry is added, and a new key is appended at the end |
| MusicFetch.Key | functions.py:51 | the key is `str(msg.id)`; see `KeysMatchIds` |
| MusicFetch.KeysMatchIds | functions.py:51 | two entries have the same key iff they have the same id |
| MusicFetch.PutOverwrites | functions.py:51-54 | an existing key is overwritten in place: its first entry takes the new value and every other entry keeps its position |
| MusicFetch.PutOverwritesUnique | functions.py:51-54 | with unique ids, assigning a present key replaces exactly that entry |
| MusicFetch.PutAscending | functions.py:26-54 | assigning a key no smaller than every key so far keeps the keys in strictly ascending id order |
| MusicFetch.PutUnique | functions.py:51-54 | assigning never makes an id appear twice |
| MusicFetch.MusicsOf | functions.py:31-54 | the dictionary after the loop holds at most one entry per message |
| MusicFetch.MusicsOfSound | functions.py:31-54 | after the loop no id is keyed twice, and every entry is the one some message yields |
| MusicFetch.MusicsOfComplete | functions.py:31-54 | every message that yields an entry has its id among the keys |
| MusicFetch.MusicsOfAscending | functions.py:26-54 | run over id-sorted messages, the loop leaves the keys in strictly ascending id order, none above the last message's id |
| MusicFetch.MusicsOfDistinct | functions.py:31-54 | with distinct message ids no entry is replaced: one entry per qualifying message, in message order |
| MusicFetch.FetchMusics | functions.py:25-58 | the fetch loop after sorting: keys ascending, every entry from a fetched message, every qualifying message keyed |
| MusicFetch.FetchedMusicsSpec | functions.py:25-58 | the same three facts, stated of the dictionary the sorted loop builds |
| PlaylistSync.PlaylistName | functions.py:78 | the playlist name is `t.me/` followed by the username |
| PlaylistSync.SongName | functions.py:108 | a query is the title, `" - "` and the artist, in that order |
| PlaylistSync.SongNames | functions.py:108 | `song_names` has one query per dictionary entry, in dictionary order |
| PlaylistSync.UniqueIdsCard | functions.py:108 | a dictionary with distinct ids has as many distinct ids as entries |
| PlaylistSync.KeysAreYieldingIds | functions.py:51-54 | the ids behind the queries are exactly the ids of the fetched messages that yield an entry |
| PlaylistSync.QueryCount | functions.py:108 | one query per fetched message id that yields an entry |
| PlaylistSync.CalculateSimilarity | functions.py:124-125 | on strings that are already lower-case, the score is the plain ratio |
| PlaylistSync.SimilarityRespectsLower | functions.py:124-125 | the score depends on its two strings only through their lower-cased forms |
| PlaylistSync.FoundTrackFull | functions.py:135-137 | `found_track_full` is the hit's name, `" - "`, then its artists joined by `", "` |
| PlaylistSync.MatchUri | functions.py:132-143 | a query contributes a URI iff it has a hit whose score reaches 0.6; the URI is the top hit's |
| PlaylistSync.SimilarityIgnoresCase | functions.py:124-125 | the similarity score does not change when either argument has its ASCII letters upper- or lower-cased |
| PlaylistSync.MatchIgnoresQueryCase | functions.py:130-143 | whether a hit is kept does not depend on the case of the query's ASCII letters |
| PlaylistSync.ExactMatchKept | functions.py:134-143 | a hit that reads as the query up to case is kept, given a ratio that scores equal strings 1 |
| PlaylistSync.AcceptedUris | functions.py:128-148 | the search loop collects at most one URI per query |
| PlaylistSync.AcceptedUrisAppend | functions.py:128-148 | the URIs collected for a split query list are those of the first part followed by those of the second |
| PlaylistSync.AcceptedUrisFromQueries | functions.py:128-148 | at most one URI per query; every collected URI is the kept top hit of some query |
| PlaylistSync.MatchTracks | functions.py:121-148 | the search loop collects exactly the kept top-hit URIs, in query order |
| PlaylistSync.Batches | functions.py:154-155 | the URIs give at least one batch exactly when there are any; every batch holds 1 to 100 URIs |
| PlaylistSync.BatchesPartition | functions.py:150-156 | the batches concatenate to the URI list; there are ⌈n/100⌉ of them; each holds 1 to 100 URIs, and all but the last hold exactly 100 |
| PlaylistSync.BatchIsSlice | functions.py:154-155 | batch `k` is `track_uris[100k : 100k+100]` |
| PlaylistSync.BatchCountIff | functions.py:154 | `range(0, n, 100)` visits batch `k` iff `100k < n` |
| PlaylistSync.TwoHundredFiftyUris | functions.py:150-157 | 250 URIs go out in three calls of 100, 100 and 50 |
| PlaylistSync.Without | functions.py:112-115 | after removing all occurrences, a track remains iff it was there and is not among the removed ids |
| PlaylistSync.WithoutKeepsCopies | functions.py:112-115 | every copy of a track that is not removed stays: its count is unchanged |
| PlaylistSync.WithoutAppend | functions.py:112-115 | removal works track by track, so the surviving tracks keep their order |
| PlaylistSync.WithoutNothing | functions.py:117-118 | removing no ids leaves the playlist unchanged |
| PlaylistSync.Playlist.RemoveAllOccurrences | functions.py:115 | every occurrence of every given track goes, and one removal call is logged |
| PlaylistSync.Playlist.AddItems | functions.py:156 | the batch (at most 100 URIs) is appended, and one add call is logged |
| PlaylistSync.ClearCalls | functions.py:113-118 | clearing issues at most one call, a removal of exactly the listed tracks, and issues it iff the listing is non-empty |
| PlaylistSync.ClearPlaylist | functions.py:112-118 | the listed tracks are removed by one call; an empty listing issues no call |
| PlaylistSync.AddInBatches | functions.py:150-163 | the playlist gains exactly the URIs, in order, through one add call per batch; no call for an empty list |
| PlaylistSync.SetPlaylistTracks | functions.py:98-163 | the kept URIs are the accepted top hits of the queries; the calls are the clearing call then the add batches; the playlist ends as the survivors of the clearing followed by the kept URIs, and as exactly the kept URIs when the listing named every track |
| PlaylistSync.FullReplacement | functions.py:110-118 | when the listing names every track, the playlist ends holding exactly the kept URIs |
| MusicScraper.NormaliseUsernameSpec | music_scraper.py:45-49 | a line is accepted iff it has a non-space character; the name is the stripped line less at most one leading `@` |
| MusicScraper.LoneAtSignAccepted | music_scraper.py:45-49 | `"@"` passes the emptiness test and becomes the empty name |
| MusicScraper.OnlyOneAtSignRemoved | music_scraper.py:48-49 | `"@@chan"` becomes `"@chan"` |
| MusicScraper.BlankLineRejected | music_scraper.py:45-46 | a line of blanks is rejected |
| MusicScraper.NormaliseUsername | music_scraper.py:45-49 | what one typed line yields; an accepted name is never longer than the line |
| MusicScraper.FirstUsername | music_scraper.py:44-52 | the name the prompt settles on; see the two lemmas below |
| MusicScraper.FirstUsernamePresence | music_scraper.py:44-52 | the prompt settles on a name iff some line is non-blank |
| MusicScraper.FirstUsernameIsFirst | music_scraper.py:44-52 | the name comes from a line all of whose predecessors are blank |
| MusicScraper.PromptChannelUsername | music_scraper.py:44-52 | the prompt loop returns the first non-blank line's name |
| MusicScraper.ResolveChannelUsername | music_scraper.py:38-52 | a non-empty configured username is used unchanged; otherwise the prompt decides |
| MusicScraper.IsAudioMessage | music_scraper.py:117-118 | the audio test: an audio payload, or a document whose non-empty MIME type contains `audio`; see `SubstringNotPrefix` |
| MusicScraper.SubstringNotPrefix | music_scraper.py:117-118 | a document of type `x-audio/test` counts as audio |
| MusicScraper.CaptionOf | music_scraper.py:133 | `message.text or ''` is the text when present and `""` otherwise |
| MusicScraper.InitialRecord | music_scraper.py:123-134 | the fresh record: every optional field `None`, with id, date, channel and caption filled in; its fields are listed in `RecordOfSpec` |
| MusicScraper.WithAttributes | music_scraper.py:143-149 | the attribute loop touches only title, artist, duration and file name |
| MusicScraper.ApplyAttributes | music_scraper.py:143-149 | the attribute loop sets title, artist and duration from the last audio attribute and the file name from the last file-name attribute; other fields keep their values |
| MusicScraper.BuildRecord | music_scraper.py:122-164 | the record built for a message is `RecordOf` |
| MusicScraper.ChosenDocument | music_scraper.py:137-155 | a document is read iff the message has an audio payload or a document; the audio payload wins, and without one the generic document is the one read |
| MusicScraper.RecordOf | music_scraper.py:122-164 | the record of one message; its fields are listed in `RecordOfSpec` |
| MusicScraper.RecordOfSpec | music_scraper.py:122-164 | an audio message's record holds its id, date and caption, the channel title, and its chosen document's MIME type, size and last-attribute values |
| MusicScraper.AudioTakesPriority | music_scraper.py:137-152 | with an audio payload present the generic document is never read |
| MusicScraper.RecordsOf | music_scraper.py:110-173 | the loop appends at most one record per message |
| MusicScraper.RecordsOfAppend | music_scraper.py:110-173 | the records of consecutive message runs are concatenated |
| MusicScraper.RecordsOfSpec | music_scraper.py:110-173 | at most one record per message; each record is that of an audio message, and each audio message has its record |
| MusicScraper.ExtractAudioMetadata | music_scraper.py:106-173 | the loop counts every message, and `audio_count` equals the number of records and never exceeds `message_count` |
| MusicScraper.ScrapeChannel | music_scraper.py:192-197 | `total_files` is the number of records; every record names the channel and has a MIME type |
| MusicScraper.WithTitle | music_scraper.py:218 | `with_title` never exceeds the number of records |
| MusicScraper.WithArtist | music_scraper.py:219 | `with_artist` never exceeds the number of records |
| MusicScraper.IsComplete | music_scraper.py:220 | `a['title'] and a['artist']`: both fields truthy |
| MusicScraper.Complete | music_scraper.py:220 | a record is listed as complete iff it has both a non-empty title and a non-empty artist |
| MusicScraper.CompleteBounds | music_scraper.py:218-220 | complete ≤ with_title, complete ≤ with_artist, and with_title + with_artist ≤ total + complete |

## Left out

- The Telethon and Spotify network calls are not modelled. Their answers are
  inputs: the fetched messages, the playlist listing, the search endpoint.
  Covered this way are entity resolution, the profile-photo download,
  `get_messages`/`iter_messages`, `playlist_items` and `search`.
- The `FloodWaitError` retry around entity resolution is left out. It is an
  unbounded recursion over a network call.
- difflib's `SequenceMatcher.ratio` is a parameter. The model fixes only that
  both strings are lower-cased before scoring.
- `create_new_playlist` is not modelled, apart from its name format: it does
  only network and file I/O (creation, cover upload).
- Other parts with no logic worth proving are left out:
  - the JSON files read and written (`musics.json`, the scraper's output);
  - all printing and the progress messages;
  - the one-second pause between batches;
  - the scraper's y/n prompt and subprocess launch;
  - the `playlistify.py` orchestration.
- Text.Lower: lower-cases ASCII letters only. Python's `str.lower()` also maps
  non-ASCII letters. Text.Upper has the same restriction.
- Text.LowerOfUpper: holds for the ASCII `Lower`/`Upper` only. In Python,
  `'ß'.upper().lower()` is `'ss'` while `'ß'.lower()` is `'ß'`.
- PlaylistSync.SimilarityIgnoresCase: upper-casing leaves the score unchanged
  only for ASCII letters. In Python, upper-casing a `'ß'` changes the strings
  compared. `SimilarityRespectsLower` is the form that holds of Python too.
- PlaylistSync.MatchIgnoresQueryCase: holds for ASCII queries only, for the
  same reason.
- MusicFetch.SortById: states sorted-by-id and permutation, not stability. A
  channel's message ids are distinct, so stability makes no difference there.
- MusicScraper.PromptChannelUsername: running out of input lines gives `None`.
  Python would raise `EOFError` there.
- MusicScraper.BuildRecord: keeps the document size in bytes. It does not
  model `round(size / 2**20, 2)` (floating point).
- MusicScraper.BuildRecord: takes the message date as an already formatted
  string. `strftime` is not modelled, nor is the `scraped_at` clock.
- PlaylistSync.SetPlaylistTracks: the listing is one input, as one
  `playlist_items` page is in the source. The playlist ends holding exactly
  the kept URIs only when that listing names every track it held
  (PlaylistSync.FullReplacement).
- PlaylistSync.Playlist: names a track by one string. The source removes by
  track id and adds by URI.
- Media kinds: the model gives every media value an optional document, and
  skips a message whose document is unset (functions.py:32). Telethon's
  other media kinds (a photo, a web page) have no `document` attribute at
  all, so `msg.media.document` would raise there. The music filter of the
  fetch call (functions.py:22) keeps those kinds out, so the model does not
  represent them.
- Telegram.Message: `audio`, `document` and `media` are independent fields.
  In Telethon, `message.audio` is `message.document` when that document has
  a non-voice audio attribute, and `message.document` is
  `message.media.document`. The model admits messages the client never
  produces, such as an audio payload beside a different generic document
  (the `other` document of MusicScraper.AudioTakesPriority); every contract
  still holds on the messages the client does produce.

=== FILE: music_fetch.dfy ===
/**
 * The record loop of the playlist tool's fetch step (functions.py): sort the
 * fetched music messages by id, scan each document's attributes, and keep a
 * `{title, artist}` entry keyed by `str(msg.id)` when both are non-empty.
 *
 * The `musics` dictionary is an insertion-ordered sequence of entries; `Put`
 * is Python's `musics[key] = value` on it.
 */
module MusicFetch {
  import opened Wrappers
  import opened Text
  import opened Telegram

  /** One entry of `musics`: the value `{title, artist}` and the id its key is made from. */
  datatype Music = Music(id: int, title: string, artist: string)

  /** The dictionary key of an entry, `str(msg.id)`. */
  function Key(e: Music): string {
    DecimalString(e.id)
  }

  /** Two entries share a key exactly when they share an id, so the dictionary may compare ids. */
  lemma KeysMatchIds(a: Music, b: Music)
    ensures Key(a) == Key(b) <==> a.id == b.id
  {
    DecimalInjective(a.id, b.id);
  }

  // ---------------------------------------------------------------------------
  // sorted(messages, key=lambda m: m.id)
  // ---------------------------------------------------------------------------

  predicate SortedById(ms: seq<Message>) {
    forall i, j :: 0 <= i < j < |ms| ==> ms[i].id <= ms[j].id
  }

  function InsertById(m: Message, s: seq<Message>): (r: seq<Message>)
    requires SortedById(s)
    ensures forall x :: x in r ==> x == m || x in s
    ensures SortedById(r) && multiset(r) == multiset(s) + multiset{m}
  {
    if s == [] || m.id <= s[0].id then [m] + s
    else
      var rest := InsertById(m, s[1..]);
      assert s == [s[0]] + s[1..];
      forall x | x in rest
        ensures s[0].id <= x.id
      {
        if x != m {
          var k :| 0 <= k < |s[1..]| && s[1..][k] == x;
          assert s[k + 1] == x;
        }
      }
      ConsSorted(s[0], rest);
      [s[0]] + rest
  }

  /** A message put in front of sorted messages with no smaller id keeps them sorted. */
  lemma ConsSorted(h: Message, rest: seq<Message>)
    requires SortedById(rest)
    requires forall x :: x in rest ==> h.id <= x.id
    ensures SortedById([h] + rest)
  {
    var s := [h] + rest;
    forall i, j | 0 <= i < j < |s|
      ensures s[i].id <= s[j].id
    {
      assert s[j] == rest[j - 1];
      if i == 0 {
        assert rest[j - 1] in rest;
      } else {
        assert s[i] == rest[i - 1];
      }
    }
  }

  /** The messages in ascending id order: a sorted permutation of the input. */
  function SortById(ms: seq<Message>): (r: seq<Message>)
    ensures SortedById(r) && multiset(r) == multiset(ms)
  {
    if ms == [] then []
    else
      assert ms == [ms[0]] + ms[1..];
      InsertById(ms[0], SortById(ms[1..]))
  }

  /** Sorting neither adds nor drops a message. */
  lemma SortKeepsMessages(ms: seq<Message>)
    ensures forall m :: m in SortById(ms) <==> m in ms
  {
    forall m ensures m in SortById(ms) <==> m in ms {
      assert m in ms <==> m in multiset(ms);
      assert m in SortById(ms) <==> m in multiset(SortById(ms));
    }
  }

  // ---------------------------------------------------------------------------
  // One message
  // ---------------------------------------------------------------------------

  /** `hasattr(attr, 'file_name')`: only a file-name attribute has one. */
  predicate HasFileName(a: Attribute) { a.FilenameAttr? }
  /** `hasattr(attr, 'title')`: of the attributes modelled, only the audio attribute has one. */
  predicate HasTitle(a: Attribute) { a.AudioAttr? }
  /** `hasattr(attr, 'performer')`: likewise only the audio attribute. */
  predicate HasPerformer(a: Attribute) { a.AudioAttr? }

  /**
   * The attribute loop: each of `file_name`, `title` and `performer` is taken
   * from the last attribute that has that field, even when its value is `None`.
   */
  method ScanAttributes(attrs: seq<Attribute>)
      returns (fileName: Option<string>, title: Option<string>, performer: Option<string>)
    ensures fileName == LastFileName(attrs)
    ensures title == TitleOf(attrs) && performer == PerformerOf(attrs)
  {
    fileName, title, performer := None, None, None;
    for i := 0 to |attrs|
      invariant fileName == LastFileName(attrs[..i])
      invariant title == TitleOf(attrs[..i]) && performer == PerformerOf(attrs[..i])
    {
      var attr := attrs[i];
      assert attrs[..i + 1][..i] == attrs[..i];
      if HasFileName(attr) {
        fileName := Some(attr.fileName);
      }
      if HasTitle(attr) {
        title := attr.title;
      }
      if HasPerformer(attr) {
        performer := attr.performer;
      }
    }
    assert attrs[..|attrs|] == attrs;
  }

  /** The entry a message contributes, if any: it needs a document and a non-empty title and performer. */
  function MusicOf(m: Message): (r: Option<Music>)
    ensures r.Some? ==> m.media.Some? && m.media.value.document.Some?
    ensures r.Some? ==> r.value.id == m.id && r.value.title != "" && r.value.artist != ""
    ensures r.Some? ==> (Some(r.value.title) == TitleOf(m.media.value.document.value.attributes)
                         && Some(r.value.artist) == PerformerOf(m.media.value.document.value.attributes))
  {
    if m.media.Some? && m.media.value.document.Some? then
      var attrs := m.media.value.document.value.attributes;
      var title := TitleOf(attrs);
      var performer := PerformerOf(attrs);
      if Truthy(title) && Truthy(performer) then Some(Music(m.id, title.value, performer.value)) else None
    else None
  }

  /**
   * A message yields an entry exactly when it has a document whose last audio
   * attribute has a non-empty title and performer; the entry then holds that
   * attribute's title as `title` and its performer as `artist`.
   */
  lemma MusicOfSpec(m: Message)
    ensures MusicOf(m).Some? <==>
              && m.media.Some? && m.media.value.document.Some?
              && exists i :: 0 <= i < |m.media.value.document.value.attributes|
                   && var a := m.media.value.document.value.attributes[i];
                      && a.AudioAttr? && Truthy(a.title) && Truthy(a.performer)
                      && forall j :: i < j < |m.media.value.document.value.attributes| ==>
                           !m.media.value.document.value.attributes[j].AudioAttr?
    ensures MusicOf(m).Some? ==> MusicOf(m).value.id == m.id
    ensures MusicOf(m).Some? ==>
              forall i ::
                (&& 0 <= i < |m.media.value.document.value.attributes|
                 && m.media.value.document.value.attributes[i].AudioAttr?
                 && (forall j :: i < j < |m.media.value.document.value.attributes| ==>
                       !m.media.value.document.value.attributes[j].AudioAttr?))
                ==> (&& Some(MusicOf(m).value.title) == m.media.value.document.value.attributes[i].title
                     && Some(MusicOf(m).value.artist) == m.media.value.document.value.attributes[i].performer)
  {
    if m.media.Some? && m.media.value.document.Some? {
      var attrs := m.media.value.document.value.attributes;
      LastAudioPresence(attrs);
      if LastAudio(attrs).Some? {
        var j :| 0 <= j < |attrs| && attrs[j].AudioAttr?;
        var i := LastAudioIndex(attrs, j);
        LastAudioIsLastCarrier(attrs, i);
        if exists k :: 0 <= k < |attrs| && attrs[k].AudioAttr? && Truthy(attrs[k].title) && Truthy(attrs[k].performer)
                       && forall j :: k < j < |attrs| ==> !attrs[j].AudioAttr? {
          var k :| 0 <= k < |attrs| && attrs[k].AudioAttr? && Truthy(attrs[k].title) && Truthy(attrs[k].performer)
                   && forall j :: k < j < |attrs| ==> !attrs[j].AudioAttr?;
          assert k == i;
        }
      }
      forall i | 0 <= i < |attrs| && attrs[i].AudioAttr? && (forall j :: i < j < |attrs| ==> !attrs[j].AudioAttr?)
        ensures LastAudio(attrs) == Some(attrs[i])
      {
        LastAudioIsLastCarrier(attrs, i);
      }
    }
  }

  /** The index of the last audio attribute, given that there is one at `j` or later. */
  lemma LastAudioIndex(attrs: seq<Attribute>, j: nat) returns (i: nat)
    requires j < |attrs| && attrs[j].AudioAttr?
    ensures j <= i < |attrs| && attrs[i].AudioAttr?
    ensures forall k :: i < k < |attrs| ==> !attrs[k].AudioAttr?
    decreases |attrs| - j
  {
    if exists k :: j < k < |attrs| && attrs[k].AudioAttr? {
      var k :| j < k < |attrs| && attrs[k].AudioAttr?;
      i := LastAudioIndex(attrs, k);
    } else {
      i := j;
    }
  }

  // ---------------------------------------------------------------------------
  // The musics dictionary
  // ---------------------------------------------------------------------------

  predicate UniqueIds(d: seq<Music>) {
    forall i, j :: 0 <= i < j < |d| ==> d[i].id != d[j].id
  }

  predicate AscendingIds(d: seq<Music>) {
    forall i, j :: 0 <= i < j < |d| ==> d[i].id < d[j].id
  }

  /**
   * `d[str(e.id)] = e` on an insertion-ordered dict: an existing key keeps its
   * position and takes the new value; a new key goes at the end. Keys are
   * compared through the ids they are made from (`KeysMatchIds`).
   */
  function Put(d: seq<Music>, e: Music): (r: seq<Music>)
    ensures e in r
    ensures forall x :: x in r ==> x == e || x in d
    ensures forall x :: x in d && x.id != e.id ==> x in r
    ensures (forall x :: x in d ==> x.id != e.id) ==> r == d + [e]
    ensures |r| <= |d| + 1
  {
    if d == [] then [e]
    else
      if d[0].id == e.id then
        assert forall x :: x in d[1..] ==> x in d;
        [e] + d[1..]
      else
        var rest := Put(d[1..], e);
        assert d == [d[0]] + d[1..];
        [d[0]] + rest
  }

  /**
   * An existing key is overwritten in place: the entry of its first
   * occurrence takes the new value and every other entry stays where it was.
   */
  lemma {:induction false} PutOverwrites(d: seq<Music>, e: Music, i: nat)
    requires i < |d| && d[i].id == e.id
    requires forall j :: 0 <= j < i ==> d[j].id != e.id
    ensures Put(d, e) == d[i := e]
  {
    if i > 0 {
      forall j | 0 <= j < i - 1
        ensures d[1..][j].id != e.id
      {
        assert d[1..][j] == d[j + 1];
      }
      PutOverwrites(d[1..], e, i - 1);
      var tail := d[1..][i - 1 := e];
      assert d[i := e] == [d[0]] + tail by {
        forall q | 0 <= q < |d|
          ensures d[i := e][q] == ([d[0]] + tail)[q]
        {
          if q > 0 {
            assert ([d[0]] + tail)[q] == tail[q - 1];
          }
        }
      }
    }
  }

  /** With unique ids, assigning a key that is present replaces that entry and nothing else. */
  lemma PutOverwritesUnique(d: seq<Music>, e: Music, i: nat)
    requires UniqueIds(d) && i < |d| && d[i].id == e.id
    ensures Put(d, e) == d[i := e]
  {
    PutOverwrites(d, e, i);
  }

  /** An entry put in front of ascending entries with larger ids keeps them ascending. */
  lemma ConsAscending(h: Music, rest: seq<Music>)
    requires AscendingIds(rest)
    requires forall x :: x in rest ==> h.id < x.id
    ensures AscendingIds([h] + rest)
  {
    var s := [h] + rest;
    forall i, j | 0 <= i < j < |s|
      ensures s[i].id < s[j].id
    {
      assert s[j] == rest[j - 1];
      if i == 0 {
        assert rest[j - 1] in rest;
      } else {
        assert s[i] == rest[i - 1];
      }
    }
  }

  /** Replacing the first entry by one with the same id keeps the entries ascending. */
  lemma ReplaceHeadAscending(d: seq<Music>, e: Music)
    requires AscendingIds(d) && d != [] && e.id == d[0].id
    ensures AscendingIds([e] + d[1..])
  {
    var s := [e] + d[1..];
    forall i, j | 0 <= i < j < |s|
      ensures s[i].id < s[j].id
    {
      assert s[j] == d[j];
      assert s[i].id == d[i].id;
    }
  }

  /** Replacing in place or appending keeps the keys ascending when the new key is the largest so far. */
  lemma {:induction false} PutAscending(d: seq<Music>, e: Music)
    requires AscendingIds(d)
    requires forall x :: x in d ==> x.id <= e.id
    ensures AscendingIds(Put(d, e))
    ensures forall x :: x in Put(d, e) ==> x.id <= e.id
  {
    if d != [] {
      if d[0].id != e.id {
        var rest := Put(d[1..], e);
        assert Put(d, e) == [d[0]] + rest;
        assert AscendingIds(d[1..]) by {
          forall i, j | 0 <= i < j < |d[1..]|
            ensures d[1..][i].id < d[1..][j].id
          {
            assert d[1..][i] == d[i + 1] && d[1..][j] == d[j + 1];
          }
        }
        PutAscending(d[1..], e);
        forall x | x in rest
          ensures d[0].id < x.id
        {
          if x != e {
            var k :| 0 <= k < |d[1..]| && d[1..][k] == x;
            assert d[k + 1] == x;
          } else {
            assert d[0] in d;
          }
        }
        ConsAscending(d[0], rest);
      } else {
        assert Put(d, e) == [e] + d[1..];
        ReplaceHeadAscending(d, e);
      }
    }
  }

  /** Assigning a key never makes a key appear twice. */
  lemma {:induction false} PutUnique(d: seq<Music>, e: Music)
    requires UniqueIds(d)
    ensures UniqueIds(Put(d, e))
  {
    if d != [] {
      if d[0].id != e.id {
        var rest := Put(d[1..], e);
        assert Put(d, e) == [d[0]] + rest;
        assert UniqueIds(d[1..]) by {
          forall i, j | 0 <= i < j < |d[1..]|
            ensures d[1..][i].id != d[1..][j].id
          {
            assert d[1..][i] == d[i + 1] && d[1..][j] == d[j + 1];
          }
        }
        PutUnique(d[1..], e);
        forall x | x in rest
          ensures d[0].id != x.id
        {
          if x != e {
            var k :| 0 <= k < |d[1..]| && d[1..][k] == x;
            assert d[k + 1] == x;
          }
        }
        ConsUnique(d[0], rest);
      } else {
        assert Put(d, e) == [e] + d[1..];
        ReplaceHeadUnique(d, e);
      }
    }
  }

  /** An entry put in front of entries with other ids keeps every id unique. */
  lemma ConsUnique(h: Music, rest: seq<Music>)
    requires UniqueIds(rest)
    requires forall x :: x in rest ==> h.id != x.id
    ensures UniqueIds([h] + rest)
  {
    var s := [h] + rest;
    forall i, j | 0 <= i < j < |s|
      ensures s[i].id != s[j].id
    {
      assert s[j] == rest[j - 1];
      if i == 0 {
        assert rest[j - 1] in rest;
      } else {
        assert s[i] == rest[i - 1];
      }
    }
  }

  /** Replacing the first entry by one with the same id keeps every id unique. */
  lemma ReplaceHeadUnique(d: seq<Music>, e: Music)
    requires UniqueIds(d) && d != [] && e.id == d[0].id
    ensures UniqueIds([e] + d[1..])
  {
    var s := [e] + d[1..];
    forall i, j | 0 <= i < j < |s|
      ensures s[i].id != s[j].id
    {
      assert s[j] == d[j];
      assert s[i].id == d[i].id;
    }
  }

  /** The dictionary after the loop has run over `ms`. */
  function MusicsOf(ms: seq<Message>): (r: seq<Music>)
    ensures |r| <= |ms|
  {
    if ms == [] then []
    else
      var d := MusicsOf(ms[..|ms| - 1]);
      match MusicOf(ms[|ms| - 1])
      case Some(e) => Put(d, e)
      case None => d
  }

  /** Every entry comes from a message of the input, and no id is keyed twice. */
  lemma {:induction false} MusicsOfSound(ms: seq<Message>)
    ensures UniqueIds(MusicsOf(ms))
    ensures forall x :: x in MusicsOf(ms) ==> exists k :: 0 <= k < |ms| && MusicOf(ms[k]) == Some(x)
  {
    if ms != [] {
      var init := ms[..|ms| - 1];
      MusicsOfSound(init);
      if MusicOf(ms[|ms| - 1]).Some? {
        PutUnique(MusicsOf(init), MusicOf(ms[|ms| - 1]).value);
      }
      forall x | x in MusicsOf(ms)
        ensures exists k :: 0 <= k < |ms| && MusicOf(ms[k]) == Some(x)
      {
        if MusicOf(ms[|ms| - 1]) == Some(x) {
        } else {
          var k :| 0 <= k < |init| && MusicOf(init[k]) == Some(x);
          assert ms[k] == init[k];
        }
      }
    }
  }

  /** Every message that yields an entry has its id among the keys. */
  lemma {:induction false} MusicsOfComplete(ms: seq<Message>)
    ensures forall k :: 0 <= k < |ms| && MusicOf(ms[k]).Some? ==>
              exists x :: x in MusicsOf(ms) && x.id == ms[k].id
  {
    if ms != [] {
      var init := ms[..|ms| - 1];
      MusicsOfComplete(init);
      var last := MusicOf(ms[|ms| - 1]);
      forall k | 0 <= k < |ms| && MusicOf(ms[k]).Some?
        ensures exists x :: x in MusicsOf(ms) && x.id == ms[k].id
      {
        if k == |ms| - 1 {
          MusicOfSpec(ms[k]);
          assert last.value in MusicsOf(ms);
        } else {
          assert ms[k] == init[k];
          var x :| x in MusicsOf(init) && x.id == init[k].id;
          if last.Some? && last.value.id == x.id {
            assert last.value in MusicsOf(ms);
          } else {
            assert x in MusicsOf(ms);
          }
        }
      }
    }
  }

  /** Run over messages in ascending id order, the loop leaves the keys in strictly ascending id order. */
  lemma {:induction false} MusicsOfAscending(ms: seq<Message>)
    requires SortedById(ms)
    ensures AscendingIds(MusicsOf(ms))
    ensures ms != [] ==> forall x :: x in MusicsOf(ms) ==> x.id <= ms[|ms| - 1].id
  {
    if ms != [] {
      var init := ms[..|ms| - 1];
      var m := ms[|ms| - 1];
      MusicsOfAscending(init);
      MusicsOfSound(init);
      assert forall x :: x in MusicsOf(init) ==> x.id <= m.id by {
        forall x | x in MusicsOf(init)
          ensures x.id <= m.id
        {
          var k :| 0 <= k < |init| && MusicOf(init[k]) == Some(x);
          MusicOfSpec(init[k]);
        }
      }
      match MusicOf(m)
      case Some(e) =>
        MusicOfSpec(m);
        PutAscending(MusicsOf(init), e);
      case None =>
    }
  }

  /** The entries of messages that yield one, in message order, with no key replaced. */
  function Entries(ms: seq<Message>): seq<Music> {
    if ms == [] then []
    else
      match MusicOf(ms[|ms| - 1])
      case Some(e) => Entries(ms[..|ms| - 1]) + [e]
      case None => Entries(ms[..|ms| - 1])
  }

  predicate DistinctMessageIds(ms: seq<Message>) {
    forall i, j :: 0 <= i < j < |ms| ==> ms[i].id != ms[j].id
  }

  /** With distinct message ids (as a channel's ids are) no key is ever replaced: one entry per qualifying message, in order. */
  lemma {:induction false} MusicsOfDistinct(ms: seq<Message>)
    requires DistinctMessageIds(ms)
    ensures MusicsOf(ms) == Entries(ms)
  {
    if ms != [] {
      var init := ms[..|ms| - 1];
      MusicsOfDistinct(init);
      match MusicOf(ms[|ms| - 1])
      case Some(e) =>
        MusicOfSpec(ms[|ms| - 1]);
        MusicsOfSound(init);
        forall x | x in MusicsOf(init)
          ensures x.id != e.id
        {
          var k :| 0 <= k < |init| && MusicOf(init[k]) == Some(x);
          MusicOfSpec(init[k]);
        }
      case None =>
    }
  }

  // ---------------------------------------------------------------------------
  // The loop
  // ---------------------------------------------------------------------------

  /** One more pass of the loop assigns the entry of the next message, if it yields one. */
  lemma MusicsOfStep(ms: seq<Message>, k: nat)
    requires k < |ms|
    ensures MusicsOf(ms[..k + 1]) ==
      match MusicOf(ms[k])
      case Some(e) => Put(MusicsOf(ms[..k]), e)
      case None => MusicsOf(ms[..k])
  {
    assert ms[..k + 1][..k] == ms[..k];
  }

  /**
   * Sorts the fetched messages by id and builds `musics`. The result is in
   * ascending id order, every entry comes from a fetched message, and every
   * fetched message that yields an entry has its id keyed.
   */
  method FetchMusics(messages: seq<Message>) returns (musics: seq<Music>)
    ensures musics == MusicsOf(SortById(messages))
    ensures AscendingIds(musics)
    ensures forall x :: x in musics ==> exists m :: m in messages && MusicOf(m) == Some(x)
    ensures forall m :: m in messages && MusicOf(m).Some? ==> exists x :: x in musics && x.id == m.id
  {
    var sorted := SortById(messages);
    musics := [];
    for k := 0 to |sorted|
      invariant musics == MusicsOf(sorted[..k])
    {
      var msg := sorted[k];
      MusicsOfStep(sorted, k);
      if msg.media.Some? && msg.media.value.document.Some? {
        var fileName, title, performer := ScanAttributes(msg.media.value.document.value.attributes);
        if Truthy(title) && Truthy(performer) {
          musics := Put(musics, Music(msg.id, title.value, performer.value));
        }
        // The `elif file_name` and `else` branches only print.
      }
    }
    assert sorted[..|sorted|] == sorted;
    FetchedMusicsSpec(messages);
  }

  /**
   * What the loop leaves after sorting: keys in ascending id order, every
   * entry from a fetched message, and every qualifying message's id keyed.
   */
  lemma FetchedMusicsSpec(messages: seq<Message>)
    ensures var musics := MusicsOf(SortById(messages));
      && AscendingIds(musics)
      && (forall x :: x in musics ==> exists m :: m in messages && MusicOf(m) == Some(x))
      && (forall m :: m in messages && MusicOf(m).Some? ==> exists x :: x in musics && x.id == m.id)
  {
    var sorted := SortById(messages);
    MusicsOfAscending(sorted);
    MusicsOfSound(sorted);
    MusicsOfComplete(sorted);
    SortKeepsMessages(messages);
    forall x | x in MusicsOf(sorted)
      ensures exists m :: m in messages && MusicOf(m) == Some(x)
    {
      var k :| 0 <= k < |sorted| && MusicOf(sorted[k]) == Some(x);
      assert sorted[k] in sorted;
    }
    forall m | m in messages && MusicOf(m).Some?
      ensures exists x :: x in MusicsOf(sorted) && x.id == m.id
    {
      var k :| 0 <= k < |sorted| && sorted[k] == m;
    }
  }
}

=== FILE: music_scraper.dfy ===
/**
 * The standalone scraper (music_scraper.py): the channel-username prompt, the
 * per-message metadata record, the scanning loop with its two counters, the
 * structured output and the summary counts.
 */
module MusicScraper {
  import opened Wrappers
  import opened Text
  import opened Telegram

  // ---------------------------------------------------------------------------
  // The channel-username prompt
  // ---------------------------------------------------------------------------

  /**
   * What one typed line yields: `None` when it is blank once stripped (the
   * prompt asks again), otherwise the stripped line with one leading `@` removed.
   */
  function NormaliseUsername(line: string): (r: Option<string>)
    ensures r.Some? ==> |r.value| <= |line|
  {
    var s := Strip(line);
    if s == "" then None
    else if s[0] == '@' then Some(s[1..])
    else Some(s)
  }

  /**
   * A line is accepted exactly when it holds a non-whitespace character, and
   * the name is its stripped form less at most one leading `@`. The emptiness
   * test comes before the `@` is dropped, so `"@"` is accepted as the empty name.
   */
  lemma NormaliseUsernameSpec(line: string)
    ensures NormaliseUsername(line).Some? <==> exists i :: 0 <= i < |line| && !IsSpace(line[i])
    ensures match NormaliseUsername(line)
            case Some(u) => Strip(line) == "@" + u || (Strip(line) == u && u[0] != '@')
            case None => true
  {
    StripEmptyIff(line);
    var s := Strip(line);
    if s != "" && s[0] == '@' {
      assert s == "@" + s[1..];
    }
  }

  /** The lone `@` passes the emptiness test and becomes the empty name. */
  lemma LoneAtSignAccepted()
    ensures NormaliseUsername("@") == Some("")
  {
    var at := "@";
    assert at[0] == '@' && |at| == 1 && !IsSpace(at[0]);
    assert TrimLeft(at) == at;
    assert TrimRight(at) == at;
    assert Strip(at) == at;
    assert at[1..] == "";
  }

  /** Only one leading `@` is removed. */
  lemma OnlyOneAtSignRemoved()
    ensures NormaliseUsername("@@chan") == Some("@chan")
  {
    assert !IsSpace('@') && !IsSpace('n');
    assert TrimLeft("@@chan") == "@@chan";
    assert TrimRight("@@chan") == "@@chan";
    assert "@@chan"[1..] == "@chan";
  }

  /** A line of blanks is rejected. */
  lemma BlankLineRejected()
    ensures NormaliseUsername(" \t") == None
  {
    assert IsSpace(' ') && IsSpace('\t');
    assert TrimLeft(" \t") == TrimLeft("\t") == TrimLeft("") == "";
  }

  /** The name the prompt settles on: that of the first non-blank line, `None` if every line is blank. */
  function FirstUsername(lines: seq<string>): Option<string> {
    if lines == [] then None
    else match NormaliseUsername(lines[0])
      case Some(u) => Some(u)
      case None => FirstUsername(lines[1..])
  }

  /** The prompt settles on a name exactly when some line is not blank. */
  lemma {:induction false} FirstUsernamePresence(lines: seq<string>)
    ensures FirstUsername(lines).Some? <==> exists i :: 0 <= i < |lines| && NormaliseUsername(lines[i]).Some?
  {
    if lines != [] && NormaliseUsername(lines[0]).None? {
      FirstUsernamePresence(lines[1..]);
      if exists i :: 0 <= i < |lines| && NormaliseUsername(lines[i]).Some? {
        var i :| 0 <= i < |lines| && NormaliseUsername(lines[i]).Some?;
        assert lines[1..][i - 1] == lines[i];
      }
    }
  }

  /** The name the prompt settles on is that of a line all of whose predecessors are blank. */
  lemma FirstUsernameIsFirst(lines: seq<string>)
    requires FirstUsername(lines).Some?
    ensures exists i :: 0 <= i < |lines| && FirstUsername(lines) == NormaliseUsername(lines[i])
                      && forall j :: 0 <= j < i ==> NormaliseUsername(lines[j]) == None
  {
    var i := FirstUsernameIndex(lines);
  }

  /** The index of the line the prompt settles on. */
  lemma {:induction false} FirstUsernameIndex(lines: seq<string>) returns (i: nat)
    requires FirstUsername(lines).Some?
    ensures i < |lines| && FirstUsername(lines) == NormaliseUsername(lines[i])
    ensures forall j :: 0 <= j < i ==> NormaliseUsername(lines[j]) == None
  {
    if NormaliseUsername(lines[0]).Some? {
      i := 0;
    } else {
      var k := FirstUsernameIndex(lines[1..]);
      BlankPrefixStep(lines, k);
      assert lines[k + 1] == lines[1..][k];
      i := k + 1;
    }
  }

  /** A blank first line followed by `i` blank lines is a blank prefix of length `i + 1`. */
  lemma BlankPrefixStep(lines: seq<string>, i: nat)
    requires i < |lines| - 1 && NormaliseUsername(lines[0]) == None
    requires forall j :: 0 <= j < i ==> NormaliseUsername(lines[1..][j]) == None
    ensures forall j :: 0 <= j < i + 1 ==> NormaliseUsername(lines[j]) == None
  {
    forall j | 0 < j < i + 1
      ensures NormaliseUsername(lines[j]) == None
    {
      assert lines[j] == lines[1..][j - 1];
    }
  }

  /**
   * The `while True` prompt over the lines typed in turn. `None` when the lines
   * run out before a non-blank one, where the source's `input()` would raise.
   */
  method PromptChannelUsername(lines: seq<string>) returns (username: Option<string>)
    ensures username == FirstUsername(lines)
  {
    var k := 0;
    while k < |lines|
      invariant 0 <= k <= |lines|
      invariant FirstUsername(lines) == FirstUsername(lines[k..])
    {
      var channelUsername := Strip(lines[k]);
      if channelUsername != "" {
        if channelUsername[0] == '@' {
          channelUsername := channelUsername[1..];
        }
        return Some(channelUsername);
      }
      assert lines[k..][1..] == lines[k + 1..];
      k := k + 1;
    }
    return None;
  }

  /**
   * The configured username is used as it is when it is non-empty (it is
   * neither stripped nor rid of an `@`); otherwise the prompt decides.
   */
  method ResolveChannelUsername(configured: Option<string>, lines: seq<string>) returns (username: Option<string>)
    ensures Truthy(configured) ==> username == configured
    ensures !Truthy(configured) ==> username == FirstUsername(lines)
  {
    if Truthy(configured) {
      username := configured;
    } else {
      username := PromptChannelUsername(lines);
    }
  }

  // ---------------------------------------------------------------------------
  // One record
  // ---------------------------------------------------------------------------

  /**
   * The `metadata` dictionary of one audio message. `fileSizeBytes` is the size
   * the source turns into megabytes rounded to two places; `date` is the
   * message's formatted timestamp and `channel` the channel title.
   */
  datatype AudioRecord = AudioRecord(
    artist: Option<string>,
    title: Option<string>,
    fileName: Option<string>,
    durationSeconds: Option<int>,
    fileSizeBytes: Option<int>,
    mimeType: Option<string>,
    messageId: int,
    date: string,
    channel: string,
    caption: string)

  /** A message is scanned as audio if it has an audio payload, or a document whose MIME type contains `audio` anywhere. */
  predicate IsAudioMessage(m: Message) {
    || m.audio.Some?
    || (m.document.Some? && m.document.value.mimeType != "" && Contains(m.document.value.mimeType, "audio"))
  }

  /** `audio` need not start the MIME type: a document of type `x-audio/test` is scanned too. */
  lemma SubstringNotPrefix(m: Message)
    requires m.audio.None? && m.document == Some(Document("x-audio/test", 0, []))
    ensures IsAudioMessage(m)
  {
    assert OccursAt("x-audio/test", "audio", 2);
  }

  /** `message.text or ''`. */
  function CaptionOf(text: Option<string>): (r: string)
    ensures r == (if text.Some? then text.value else "")
  {
    if Truthy(text) then text.value else ""
  }

  /** The freshly initialised record: every optional field `None`. */
  function InitialRecord(m: Message, channelTitle: string): AudioRecord {
    AudioRecord(None, None, None, None, None, None, m.id, m.date, channelTitle, CaptionOf(m.text))
  }

  /**
   * The record after the attribute loop over `attrs`: the last audio attribute
   * sets title, artist and duration (the first two possibly to `None`), the last
   * file-name attribute sets the file name; without such an attribute the field
   * keeps its value.
   */
  function WithAttributes(md: AudioRecord, attrs: seq<Attribute>): (r: AudioRecord)
    ensures r.messageId == md.messageId && r.date == md.date && r.channel == md.channel && r.caption == md.caption
    ensures r.mimeType == md.mimeType && r.fileSizeBytes == md.fileSizeBytes
  {
    var md1 :=
      match LastAudio(attrs)
      case Some(a) => md.(title := a.title, artist := a.performer, durationSeconds := Some(a.duration))
      case None => md;
    match LastFileName(attrs)
    case Some(f) => md1.(fileName := Some(f))
    case None => md1
  }

  /** The attribute loop, updating the record field by field. */
  method ApplyAttributes(metadata: AudioRecord, attrs: seq<Attribute>) returns (md: AudioRecord)
    ensures md == WithAttributes(metadata, attrs)
  {
    md := metadata;
    for i := 0 to |attrs|
      invariant md == WithAttributes(metadata, attrs[..i])
    {
      var attr := attrs[i];
      assert attrs[..i + 1][..i] == attrs[..i];
      match attr
      case AudioAttr(duration, title, performer) =>
        md := md.(title := title);
        md := md.(artist := performer);
        md := md.(durationSeconds := Some(duration));
      case FilenameAttr(fileName) =>
        md := md.(fileName := Some(fileName));
      case OtherAttr =>
    }
    assert attrs[..|attrs|] == attrs;
  }

  /** The document the record is read from: the audio payload if there is one, the generic document otherwise. */
  function ChosenDocument(m: Message): (r: Option<Document>)
    ensures r.Some? <==> m.audio.Some? || m.document.Some?
    ensures m.audio.Some? ==> r == m.audio
    ensures m.audio.None? ==> r == m.document
  {
    if m.audio.Some? then m.audio else m.document
  }

  /** The record the source builds for a message. */
  function RecordOf(m: Message, channelTitle: string): AudioRecord {
    var init := InitialRecord(m, channelTitle);
    match ChosenDocument(m)
    case Some(d) => WithAttributes(init.(mimeType := Some(d.mimeType), fileSizeBytes := Some(d.size)), d.attributes)
    case None => init
  }

  /** Builds the record of one audio message. */
  method BuildRecord(message: Message, channelTitle: string) returns (metadata: AudioRecord)
    ensures metadata == RecordOf(message, channelTitle)
  {
    metadata := AudioRecord(
      None, None, None, None, None, None,
      message.id, message.date, channelTitle,
      if Truthy(message.text) then message.text.value else "");
    if message.audio.Some? {
      var audio := message.audio.value;
      metadata := metadata.(mimeType := Some(audio.mimeType));
      metadata := metadata.(fileSizeBytes := Some(audio.size));
      metadata := ApplyAttributes(metadata, audio.attributes);
    } else if message.document.Some? {
      var doc := message.document.value;
      metadata := metadata.(mimeType := Some(doc.mimeType));
      metadata := metadata.(fileSizeBytes := Some(doc.size));
      metadata := ApplyAttributes(metadata, doc.attributes);
    }
  }

  /**
   * What a record holds: the message's id, date and caption, the channel title,
   * and from the chosen document its MIME type, its size and what its last
   * audio and file-name attributes say; every field no attribute set stays `None`.
   */
  lemma RecordOfSpec(m: Message, channelTitle: string)
    requires IsAudioMessage(m)
    ensures var r := RecordOf(m, channelTitle);
      && ChosenDocument(m).Some?
      && var d := ChosenDocument(m).value;
      && r.messageId == m.id && r.date == m.date && r.channel == channelTitle
      && r.caption == (if Truthy(m.text) then m.text.value else "")
      && r.mimeType == Some(d.mimeType) && r.fileSizeBytes == Some(d.size)
      && r.title == TitleOf(d.attributes) && r.artist == PerformerOf(d.attributes)
      && r.durationSeconds == DurationOf(d.attributes)
      && r.fileName == LastFileName(d.attributes)
  {
  }

  /** With an audio payload present, the generic document is never read. */
  lemma AudioTakesPriority(m: Message, channelTitle: string, other: Option<Document>)
    requires m.audio.Some?
    ensures RecordOf(m.(document := other), channelTitle) == RecordOf(m, channelTitle)
  {
  }

  // ---------------------------------------------------------------------------
  // The scanning loop
  // ---------------------------------------------------------------------------

  /** The records the loop appends, in iteration order. */
  function RecordsOf(ms: seq<Message>, channelTitle: string): (r: seq<AudioRecord>)
    ensures |r| <= |ms|
  {
    if ms == [] then []
    else
      var prev := RecordsOf(ms[..|ms| - 1], channelTitle);
      var m := ms[|ms| - 1];
      if IsAudioMessage(m) then prev + [RecordOf(m, channelTitle)] else prev
  }

  /** The records of consecutive runs of messages are those of the first run followed by those of the second. */
  lemma {:induction false} RecordsOfAppend(a: seq<Message>, b: seq<Message>, channelTitle: string)
    ensures RecordsOf(a + b, channelTitle) == RecordsOf(a, channelTitle) + RecordsOf(b, channelTitle)
  {
    if b == [] {
      assert a + b == a;
    } else {
      assert (a + b)[..|a + b| - 1] == a + b[..|b| - 1];
      assert (a + b)[|a + b| - 1] == b[|b| - 1];
      assert RecordsOf(a + b, channelTitle) ==
        (if IsAudioMessage(b[|b| - 1])
         then RecordsOf(a + b[..|b| - 1], channelTitle) + [RecordOf(b[|b| - 1], channelTitle)]
         else RecordsOf(a + b[..|b| - 1], channelTitle));
      RecordsOfAppend(a, b[..|b| - 1], channelTitle);
    }
  }

  /**
   * At most one record per message; every record is that of a scanned audio
   * message, and every scanned audio message has its record in the list.
   */
  lemma {:induction false} RecordsOfSpec(ms: seq<Message>, channelTitle: string)
    ensures |RecordsOf(ms, channelTitle)| <= |ms|
    ensures forall r :: r in RecordsOf(ms, channelTitle) ==>
              exists k :: 0 <= k < |ms| && IsAudioMessage(ms[k]) && r == RecordOf(ms[k], channelTitle)
    ensures forall k :: 0 <= k < |ms| && IsAudioMessage(ms[k]) ==> RecordOf(ms[k], channelTitle) in RecordsOf(ms, channelTitle)
  {
    if ms != [] {
      var init := ms[..|ms| - 1];
      RecordsOfSpec(init, channelTitle);
      forall r | r in RecordsOf(ms, channelTitle)
        ensures exists k :: 0 <= k < |ms| && IsAudioMessage(ms[k]) && r == RecordOf(ms[k], channelTitle)
      {
        if r in RecordsOf(init, channelTitle) {
          var k :| 0 <= k < |init| && IsAudioMessage(init[k]) && r == RecordOf(init[k], channelTitle);
          assert ms[k] == init[k];
        }
      }
      forall k | 0 <= k < |ms| && IsAudioMessage(ms[k])
        ensures RecordOf(ms[k], channelTitle) in RecordsOf(ms, channelTitle)
      {
        if k < |ms| - 1 {
          assert ms[k] == init[k];
        }
      }
    }
  }

  /**
   * The scanning loop: counts every message, and for each audio message counts
   * it and appends its record. `audioCount` is always the list's length and
   * never exceeds `messageCount`.
   */
  method ExtractAudioMetadata(messages: seq<Message>, channelTitle: string)
      returns (audioMetadataList: seq<AudioRecord>, messageCount: nat, audioCount: nat)
    ensures audioMetadataList == RecordsOf(messages, channelTitle)
    ensures messageCount == |messages|
    ensures audioCount == |audioMetadataList| <= messageCount
  {
    audioMetadataList := [];
    audioCount := 0;
    messageCount := 0;
    for k := 0 to |messages|
      invariant messageCount == k
      invariant audioMetadataList == RecordsOf(messages[..k], channelTitle)
      invariant audioCount == |audioMetadataList| <= messageCount
    {
      var message := messages[k];
      assert messages[..k + 1][..k] == messages[..k];
      messageCount := messageCount + 1;
      if IsAudioMessage(message) {
        audioCount := audioCount + 1;
        var metadata := BuildRecord(message, channelTitle);
        audioMetadataList := audioMetadataList + [metadata];
      }
    }
    assert messages[..|messages|] == messages;
  }

  // ---------------------------------------------------------------------------
  // The output document
  // ---------------------------------------------------------------------------

  /** `channel_info`, as captured from the channel before the scan. */
  datatype ChannelInfo = ChannelInfo(
    title: string,
    username: Option<string>,
    id: int,
    description: string,
    subscribers: Option<int>,
    profilePicture: Option<string>)

  /** The structured output written to the document. */
  datatype ScrapeOutput = ScrapeOutput(
    scrapedAt: string,
    channelInfo: ChannelInfo,
    totalFiles: int,
    audioFiles: seq<AudioRecord>)

  /**
   * Scans the channel's messages and assembles the output: `total_files` is the
   * number of records, and every record names the channel it came from.
   */
  method ScrapeChannel(messages: seq<Message>, channelInfo: ChannelInfo, scrapedAt: string)
      returns (output: ScrapeOutput)
    ensures output.audioFiles == RecordsOf(messages, channelInfo.title)
    ensures output.totalFiles == |output.audioFiles| <= |messages|
    ensures output.channelInfo == channelInfo && output.scrapedAt == scrapedAt
    ensures forall r :: r in output.audioFiles ==> r.channel == channelInfo.title && r.mimeType.Some?
  {
    var audioData, messageCount, audioCount := ExtractAudioMetadata(messages, channelInfo.title);
    output := ScrapeOutput(scrapedAt, channelInfo, |audioData|, audioData);
    RecordsOfSpec(messages, channelInfo.title);
    forall r | r in output.audioFiles
      ensures r.channel == channelInfo.title && r.mimeType.Some?
    {
      var k :| 0 <= k < |messages| && IsAudioMessage(messages[k]) && r == RecordOf(messages[k], channelInfo.title);
      RecordOfSpec(messages[k], channelInfo.title);
    }
  }

  // ---------------------------------------------------------------------------
  // The summary counts
  // ---------------------------------------------------------------------------

  /** `with_title`: records whose title is non-empty. */
  function WithTitle(rs: seq<AudioRecord>): (n: nat)
    ensures n <= |rs|
  {
    if rs == [] then 0 else (if Truthy(rs[0].title) then 1 else 0) + WithTitle(rs[1..])
  }

  /** `with_artist`: records whose artist is non-empty. */
  function WithArtist(rs: seq<AudioRecord>): (n: nat)
    ensures n <= |rs|
  {
    if rs == [] then 0 else (if Truthy(rs[0].artist) then 1 else 0) + WithArtist(rs[1..])
  }

  /** `a['title'] and a['artist']`: both fields truthy. */
  predicate IsComplete(r: AudioRecord) {
    Truthy(r.title) && Truthy(r.artist)
  }

  /** `complete`: the records with both a non-empty title and a non-empty artist, in order. */
  function Complete(rs: seq<AudioRecord>): (c: seq<AudioRecord>)
    ensures forall r :: r in c <==> r in rs && IsComplete(r)
  {
    if rs == [] then []
    else if IsComplete(rs[0]) then [rs[0]] + Complete(rs[1..])
    else Complete(rs[1..])
  }

  /**
   * No more complete records than titled ones or artist-bearing ones, and at
   * least as many as the two counts overlap beyond the total.
   */
  lemma {:induction false} CompleteBounds(rs: seq<AudioRecord>)
    ensures |Complete(rs)| <= WithTitle(rs)
    ensures |Complete(rs)| <= WithArtist(rs)
    ensures WithTitle(rs) + WithArtist(rs) <= |rs| + |Complete(rs)|
  {
    if rs != [] {
      CompleteBounds(rs[1..]);
    }
  }
}

=== FILE: playlist_sync.dfy ===
/**
 * The playlist tool's reconciliation step (functions.py, `set_playlist_tracks`):
 * build one `"title - artist"` query per entry, clear the playlist of the
 * tracks one listing call returns, keep the top search result of each query
 * when it is similar enough, and add the kept URIs in batches of at most 100.
 *
 * The search endpoint and the string-similarity ratio are parameters: the
 * model fixes what the code does with their answers, not the answers.
 */
module PlaylistSync {
  import opened Wrappers
  import opened Text
  import opened Telegram
  import opened MusicFetch

  /** `SIMILARITY_THRESHOLD` of config.py. */
  const SimilarityThreshold: real := 0.6

  /** The most items one "add items" call may carry. */
  const BatchSize: nat := 100

  /** The name the playlist is created with: `t.me/` followed by the channel username. */
  function PlaylistName(username: string): (r: string)
    ensures |r| == |username| + 5 && r[..5] == "t.me/" && r[5..] == username
  {
    "t.me/" + username
  }

  // ---------------------------------------------------------------------------
  // The query list
  // ---------------------------------------------------------------------------

  /** The query for one entry, `f"{title} - {artist}"`: the title, the separator `" - "` and the artist, in that order. */
  function SongName(e: Music): (q: string)
    ensures |q| == |e.title| + 3 + |e.artist|
    ensures q[..|e.title|] == e.title
    ensures q[|e.title|..|e.title| + 3] == " - "
    ensures q[|e.title| + 3..] == e.artist
  {
    assert e.title + " - " + e.artist == e.title + (" - " + e.artist);
    e.title + " - " + e.artist
  }

  /** `song_names`: one query per entry of `musics`, in dictionary order. */
  function SongNames(musics: seq<Music>): (r: seq<string>)
    ensures |r| == |musics|
    ensures forall i :: 0 <= i < |musics| ==> r[i] == SongName(musics[i])
  {
    seq(|musics|, i requires 0 <= i < |musics| => SongName(musics[i]))
  }

  function IdSet(d: seq<Music>): set<int> {
    set x | x in d :: x.id
  }

  lemma {:induction false} UniqueIdsCard(d: seq<Music>)
    requires UniqueIds(d)
    ensures |IdSet(d)| == |d|
  {
    if d != [] {
      UniqueIdsCard(d[1..]);
      assert IdSet(d) == {d[0].id} + IdSet(d[1..]);
      assert d[0].id !in IdSet(d[1..]) by {
        forall x | x in d[1..] ensures x.id != d[0].id {
          var k :| 0 <= k < |d[1..]| && d[1..][k] == x;
          assert d[k + 1] == x;
        }
      }
    }
  }

  /** The ids of the messages that yield an entry. */
  function YieldingIds(messages: seq<Message>): set<int> {
    set m | m in messages && MusicOf(m).Some? :: m.id
  }

  /** The dictionary's keys are exactly the ids of the messages that yield an entry. */
  lemma KeysAreYieldingIds(messages: seq<Message>)
    ensures IdSet(MusicsOf(SortById(messages))) == YieldingIds(messages)
  {
    var sorted := SortById(messages);
    var d := MusicsOf(sorted);
    SortKeepsMessages(messages);
    MusicsOfSound(sorted);
    MusicsOfComplete(sorted);
    forall x | x in d ensures x.id in YieldingIds(messages) {
      var k :| 0 <= k < |sorted| && MusicOf(sorted[k]) == Some(x);
      MusicOfSpec(sorted[k]);
      assert sorted[k] in messages;
    }
    forall id | id in YieldingIds(messages) ensures id in IdSet(d) {
      var m :| m in messages && MusicOf(m).Some? && m.id == id;
      var k :| 0 <= k < |sorted| && sorted[k] == m;
      var x :| x in d && x.id == sorted[k].id;
    }
  }

  /**
   * One query per fetched message id that yields an entry: messages without a
   * document, or without a non-empty title and performer, issue no query.
   */
  lemma QueryCount(messages: seq<Message>)
    ensures |SongNames(MusicsOf(SortById(messages)))| == |YieldingIds(messages)|
  {
    var d := MusicsOf(SortById(messages));
    MusicsOfSound(SortById(messages));
    UniqueIdsCard(d);
    KeysAreYieldingIds(messages);
  }

  // ---------------------------------------------------------------------------
  // Matching
  // ---------------------------------------------------------------------------

  /** A search hit: its URI, its name and the names of its artists, in order. */
  datatype Track = Track(uri: string, name: string, artists: seq<string>)

  /** `found_track_full`: the hit's name, `" - "`, and its artists joined by `", "`. */
  function FoundTrackFull(t: Track): (r: string)
    ensures |r| == |t.name| + 3 + |Join(", ", t.artists)|
    ensures r[..|t.name|] == t.name
    ensures r[|t.name|..|t.name| + 3] == " - "
    ensures r[|t.name| + 3..] == Join(", ", t.artists)
  {
    assert t.name + " - " + Join(", ", t.artists) == t.name + (" - " + Join(", ", t.artists));
    t.name + " - " + Join(", ", t.artists)
  }

  /** `calculate_similarity`: the ratio of the two strings, each lower-cased first. */
  function CalculateSimilarity(ratio: (string, string) -> real, a: string, b: string): (r: real)
    ensures Lower(a) == a && Lower(b) == b ==> r == ratio(a, b)
  {
    ratio(Lower(a), Lower(b))
  }

  /** The score depends on the two strings only through their lower-cased forms. */
  lemma SimilarityRespectsLower(ratio: (string, string) -> real, a: string, b: string, a2: string, b2: string)
    requires Lower(a) == Lower(a2) && Lower(b) == Lower(b2)
    ensures CalculateSimilarity(ratio, a, b) == CalculateSimilarity(ratio, a2, b2)
  {
  }

  /** The score does not see letter case: upper- or lower-casing either argument leaves it unchanged. */
  lemma SimilarityIgnoresCase(ratio: (string, string) -> real, a: string, b: string)
    ensures CalculateSimilarity(ratio, Upper(a), b) == CalculateSimilarity(ratio, a, b)
    ensures CalculateSimilarity(ratio, a, Upper(b)) == CalculateSimilarity(ratio, a, b)
    ensures CalculateSimilarity(ratio, Lower(a), Lower(b)) == CalculateSimilarity(ratio, a, b)
  {
    LowerOfUpper(a);
    LowerOfUpper(b);
    LowerIdempotent(a);
    LowerIdempotent(b);
  }

  /**
   * What one query contributes: the top hit's URI when there is a hit and its
   * score against the query reaches the threshold; nothing otherwise.
   */
  function MatchUri(ratio: (string, string) -> real, song: string, items: seq<Track>): (r: Option<string>)
    ensures r.Some? <==> items != [] && CalculateSimilarity(ratio, song, FoundTrackFull(items[0])) >= SimilarityThreshold
    ensures r.Some? ==> r.value == items[0].uri
  {
    if items == [] then None
    else if CalculateSimilarity(ratio, song, FoundTrackFull(items[0])) >= SimilarityThreshold then Some(items[0].uri)
    else None
  }

  /** Re-casing the query does not change whether its hit is kept. */
  lemma MatchIgnoresQueryCase(ratio: (string, string) -> real, song: string, items: seq<Track>)
    ensures MatchUri(ratio, Upper(song), items) == MatchUri(ratio, song, items)
    ensures MatchUri(ratio, Lower(song), items) == MatchUri(ratio, song, items)
  {
    if items != [] {
      var found := FoundTrackFull(items[0]);
      SimilarityIgnoresCase(ratio, song, found);
      LowerIdempotent(song);
    }
  }

  /** A hit that reads the same as the query up to case is kept, given a ratio that scores equal strings 1. */
  lemma ExactMatchKept(ratio: (string, string) -> real, song: string, items: seq<Track>)
    requires items != [] && Lower(FoundTrackFull(items[0])) == Lower(song)
    requires ratio(Lower(song), Lower(song)) == 1.0
    ensures MatchUri(ratio, song, items) == Some(items[0].uri)
  {
  }

  /** The URIs the search loop collects, in query order. */
  function AcceptedUris(ratio: (string, string) -> real, search: string -> seq<Track>, songs: seq<string>): (r: seq<string>)
    ensures |r| <= |songs|
  {
    if songs == [] then []
    else
      var prev := AcceptedUris(ratio, search, songs[..|songs| - 1]);
      var song := songs[|songs| - 1];
      match MatchUri(ratio, song, search(song))
      case Some(u) => prev + [u]
      case None => prev
  }

  /** The collected URIs of a split query list are those of the first part followed by those of the second. */
  lemma {:induction false} AcceptedUrisAppend(ratio: (string, string) -> real, search: string -> seq<Track>, s1: seq<string>, s2: seq<string>)
    ensures AcceptedUris(ratio, search, s1 + s2) == AcceptedUris(ratio, search, s1) + AcceptedUris(ratio, search, s2)
  {
    if s2 != [] {
      var init := s2[..|s2| - 1];
      AcceptedUrisAppend(ratio, search, s1, init);
      assert (s1 + s2)[..|s1 + s2| - 1] == s1 + init;
    } else {
      assert s1 + s2 == s1;
    }
  }

  /** At most one URI per query, and every collected URI is the kept top hit of some query. */
  lemma {:induction false} AcceptedUrisFromQueries(ratio: (string, string) -> real, search: string -> seq<Track>, songs: seq<string>)
    ensures |AcceptedUris(ratio, search, songs)| <= |songs|
    ensures forall u :: u in AcceptedUris(ratio, search, songs) ==>
              exists i :: 0 <= i < |songs| && MatchUri(ratio, songs[i], search(songs[i])) == Some(u)
  {
    if songs != [] {
      var init := songs[..|songs| - 1];
      AcceptedUrisFromQueries(ratio, search, init);
      forall u | u in AcceptedUris(ratio, search, songs)
        ensures exists i :: 0 <= i < |songs| && MatchUri(ratio, songs[i], search(songs[i])) == Some(u)
      {
        if u in AcceptedUris(ratio, search, init) {
          var i :| 0 <= i < |init| && MatchUri(ratio, init[i], search(init[i])) == Some(u);
          assert songs[i] == init[i];
        }
      }
    }
  }

  /** The search loop: one top-1 search per query, in query order, appending each kept URI. */
  method MatchTracks(ratio: (string, string) -> real, search: string -> seq<Track>, songNames: seq<string>)
      returns (trackUris: seq<string>)
    ensures trackUris == AcceptedUris(ratio, search, songNames)
  {
    trackUris := [];
    for i := 0 to |songNames|
      invariant trackUris == AcceptedUris(ratio, search, songNames[..i])
    {
      var song := songNames[i];
      assert songNames[..i + 1][..i] == songNames[..i];
      var tracks := search(song);
      if tracks != [] {
        var foundTrack := tracks[0];
        var foundTrackFull := foundTrack.name + " - " + Join(", ", foundTrack.artists);
        var similarityScore := CalculateSimilarity(ratio, song, foundTrackFull);
        if similarityScore >= SimilarityThreshold {
          trackUris := trackUris + [foundTrack.uri];
        }
      }
    }
    assert songNames[..|songNames|] == songNames;
  }

  // ---------------------------------------------------------------------------
  // Batches
  // ---------------------------------------------------------------------------

  function Min(a: int, b: int): int {
    if a <= b then a else b
  }

  /** `track_uris[i:i+100]` for `i` in `range(0, n, 100)`. */
  function Batches(s: seq<string>): (r: seq<seq<string>>)
    ensures s != [] <==> r != []
    ensures forall k :: 0 <= k < |r| ==> 1 <= |r[k]| <= BatchSize
    decreases |s|
  {
    if s == [] then []
    else if |s| <= BatchSize then [s]
    else [s[..BatchSize]] + Batches(s[BatchSize..])
  }

  function Flatten(bs: seq<seq<string>>): seq<string> {
    if bs == [] then [] else bs[0] + Flatten(bs[1..])
  }

  /**
   * The batches partition the URI list: concatenated they give it back, there
   * are ⌈n/100⌉ of them, every one but the last holds exactly 100 URIs and the
   * last holds between 1 and 100.
   */
  lemma {:induction false} BatchesPartition(s: seq<string>)
    ensures Flatten(Batches(s)) == s
    ensures |Batches(s)| == (|s| + BatchSize - 1) / BatchSize
    ensures forall k :: 0 <= k < |Batches(s)| ==> 1 <= |Batches(s)[k]| <= BatchSize
    ensures forall k :: 0 <= k < |Batches(s)| - 1 ==> |Batches(s)[k]| == BatchSize
    decreases |s|
  {
    if |s| > BatchSize {
      BatchesPartition(s[BatchSize..]);
      assert Batches(s)[1..] == Batches(s[BatchSize..]);
      assert s == s[..BatchSize] + s[BatchSize..];
    }
  }

  lemma SliceOfSuffix(s: seq<string>, c: nat, a: nat, b: nat)
    requires c <= |s| && a <= b <= |s| - c
    ensures s[c..][a..b] == s[c + a..c + b]
  {
    forall q | 0 <= q < b - a
      ensures s[c..][a..b][q] == s[c + a..c + b][q]
    {
    }
  }

  /** Batch `k` is the slice of the URI list that starts at `100 * k`. */
  lemma {:induction false} BatchIsSlice(s: seq<string>, k: nat)
    requires k < |Batches(s)|
    ensures k * BatchSize < |s|
    ensures Batches(s)[k] == s[k * BatchSize..Min(k * BatchSize + BatchSize, |s|)]
    decreases |s|
  {
    if |s| > BatchSize && k > 0 {
      var t := s[BatchSize..];
      BatchIsSlice(t, k - 1);
      var lo := (k - 1) * BatchSize;
      assert lo + BatchSize == k * BatchSize;
      assert Batches(s)[k] == Batches(t)[k - 1];
      var hi := Min(lo + BatchSize, |t|);
      assert hi + BatchSize == Min(lo + BatchSize + BatchSize, |s|);
      SliceOfSuffix(s, BatchSize, lo, hi);
    }
  }

  /** The loop over `range(0, n, 100)` visits batch `k` exactly when `100 * k < n`. */
  lemma BatchCountIff(s: seq<string>, k: nat)
    ensures k < |Batches(s)| <==> k * BatchSize < |s|
  {
    BatchesPartition(s);
  }

  /** For 250 URIs the loop issues three add calls, of 100, 100 and 50 URIs. */
  lemma TwoHundredFiftyUris(s: seq<string>)
    requires |s| == 250
    ensures |Batches(s)| == 3
    ensures |Batches(s)[0]| == 100 && |Batches(s)[1]| == 100 && |Batches(s)[2]| == 50
  {
    BatchesPartition(s);
    BatchIsSlice(s, 2);
  }

  // ---------------------------------------------------------------------------
  // The playlist
  // ---------------------------------------------------------------------------

  /** A modifying call issued against the playlist. */
  datatype Call = RemoveCall(ids: seq<string>) | AddCall(uris: seq<string>)

  function AddCalls(bs: seq<seq<string>>): seq<Call> {
    seq(|bs|, k requires 0 <= k < |bs| => AddCall(bs[k]))
  }

  /** One more batch adds one more add call at the end. */
  lemma AddCallsSnoc(bs: seq<seq<string>>, b: seq<string>)
    ensures AddCalls(bs + [b]) == AddCalls(bs) + [AddCall(b)]
  {
  }

  /** The tracks of `s` that are not among `ids`, in order. */
  function Without(s: seq<string>, ids: seq<string>): (r: seq<string>)
    ensures forall t :: t in r <==> t in s && t !in ids
    ensures |r| <= |s|
  {
    if s == [] then []
    else if s[0] in ids then Without(s[1..], ids)
    else [s[0]] + Without(s[1..], ids)
  }

  /** Removal leaves every copy of a track that is not removed: a playlist holding it twice still does. */
  lemma {:induction false} WithoutKeepsCopies(s: seq<string>, ids: seq<string>)
    ensures forall t :: t !in ids ==> multiset(Without(s, ids))[t] == multiset(s)[t]
  {
    if s != [] {
      WithoutKeepsCopies(s[1..], ids);
      assert s == [s[0]] + s[1..];
      if s[0] !in ids {
        assert Without(s, ids) == [s[0]] + Without(s[1..], ids);
      }
    }
  }

  /** Removal works track by track, so the surviving tracks keep their order. */
  lemma {:induction false} WithoutAppend(a: seq<string>, b: seq<string>, ids: seq<string>)
    ensures Without(a + b, ids) == Without(a, ids) + Without(b, ids)
  {
    if a != [] {
      var s := a + b;
      assert s[0] == a[0];
      assert s[1..] == a[1..] + b;
      WithoutAppend(a[1..], b, ids);
      var x, y := Without(a[1..], ids), Without(b, ids);
      if a[0] !in ids {
        assert [a[0]] + (x + y) == ([a[0]] + x) + y;
      }
    } else {
      assert a + b == b;
    }
  }

  /**
   * The remote playlist: its track list (a track is named by one string,
   * whether the call uses its id or its URI) and the log of modifying calls
   * issued against it.
   */
  class Playlist {
    var tracks: seq<string>
    var calls: seq<Call>

    constructor (tracks: seq<string>)
      ensures this.tracks == tracks && calls == []
    {
      this.tracks := tracks;
      calls := [];
    }

    /** `playlist_remove_all_occurrences_of_items`: every occurrence of every given track goes. */
    method RemoveAllOccurrences(ids: seq<string>)
      modifies this
      ensures tracks == Without(old(tracks), ids)
      ensures calls == old(calls) + [RemoveCall(ids)]
    {
      tracks := Without(tracks, ids);
      calls := calls + [RemoveCall(ids)];
    }

    /** `playlist_add_items`: appends the given tracks; the service takes at most 100 per call. */
    method AddItems(uris: seq<string>)
      requires |uris| <= BatchSize
      modifies this
      ensures tracks == old(tracks) + uris
      ensures calls == old(calls) + [AddCall(uris)]
    {
      tracks := tracks + uris;
      calls := calls + [AddCall(uris)];
    }
  }

  /** The calls the clearing step issues: one removal of exactly the listed tracks, or none for an empty listing. */
  function ClearCalls(listing: seq<string>): (r: seq<Call>)
    ensures |r| <= 1 && (r != [] <==> listing != [])
    ensures forall c :: c in r ==> c == RemoveCall(listing)
  {
    if listing == [] then [] else [RemoveCall(listing)]
  }

  /** Clears the playlist of the tracks the listing call returned; an empty listing issues no call. */
  method ClearPlaylist(p: Playlist, listing: seq<string>)
    modifies p
    ensures p.tracks == Without(old(p.tracks), listing)
    ensures p.calls == old(p.calls) + ClearCalls(listing)
  {
    if listing != [] {
      p.RemoveAllOccurrences(listing);
    } else {
      assert Without(p.tracks, listing) == p.tracks by {
        WithoutNothing(p.tracks);
      }
    }
  }

  lemma {:induction false} WithoutNothing(s: seq<string>)
    ensures Without(s, []) == s
  {
    if s != [] {
      WithoutNothing(s[1..]);
    }
  }

  /** Adds the URIs in consecutive batches of at most 100, one add call per batch, none for an empty list. */
  method AddInBatches(p: Playlist, trackUris: seq<string>)
    modifies p
    ensures p.tracks == old(p.tracks) + trackUris
    ensures p.calls == old(p.calls) + AddCalls(Batches(trackUris))
  {
    var n := |trackUris|;
    var i := 0;
    ghost var k := 0;
    while i < n
      invariant i == k * BatchSize && k <= |Batches(trackUris)|
      invariant p.tracks == old(p.tracks) + trackUris[..Min(i, n)]
      invariant p.calls == old(p.calls) + AddCalls(Batches(trackUris)[..k])
    {
      BatchCountIff(trackUris, k);
      BatchIsSlice(trackUris, k);
      var batch := trackUris[i..Min(i + BatchSize, n)];
      assert trackUris[..Min(i + BatchSize, n)] == trackUris[..i] + batch;
      assert Batches(trackUris)[..k + 1] == Batches(trackUris)[..k] + [batch];
      AddCallsSnoc(Batches(trackUris)[..k], batch);
      p.AddItems(batch);
      i, k := i + BatchSize, k + 1;
    }
    BatchCountIff(trackUris, k);
    assert Batches(trackUris)[..k] == Batches(trackUris);
    assert trackUris[..Min(i, n)] == trackUris;
  }

  /**
   * `set_playlist_tracks` with the search endpoint, the ratio and the result
   * of the single listing call as inputs: the calls issued are the clearing
   * call (if any) followed by one add call per batch, and the playlist ends as
   * what survived the clearing followed by the kept URIs.
   */
  method SetPlaylistTracks(
    p: Playlist, musics: seq<Music>, listing: seq<string>,
    search: string -> seq<Track>, ratio: (string, string) -> real)
      returns (trackUris: seq<string>)
    modifies p
    ensures trackUris == AcceptedUris(ratio, search, SongNames(musics))
    ensures p.calls == old(p.calls) + ClearCalls(listing) + AddCalls(Batches(trackUris))
    ensures p.tracks == Without(old(p.tracks), listing) + trackUris
    ensures (forall t :: t in old(p.tracks) ==> t in listing) ==> p.tracks == trackUris
  {
    var songNames := SongNames(musics);
    ClearPlaylist(p, listing);
    trackUris := MatchTracks(ratio, search, songNames);
    AddInBatches(p, trackUris);
    if forall t :: t in old(p.tracks) ==> t in listing {
      FullReplacement(old(p.tracks), listing, trackUris);
    }
  }

  /** When the listing named every track the playlist held, the playlist ends holding exactly the kept URIs. */
  lemma FullReplacement(before: seq<string>, listing: seq<string>, trackUris: seq<string>)
    requires forall t :: t in before ==> t in listing
    ensures Without(before, listing) + trackUris == trackUris
  {
  }
}

=== FILE: telegram.dfy ===
/**
 * The messaging-platform values both core files read: messages, their media
 * and documents, and a document's attribute list. They are the results of the
 * platform calls, given to the model as plain values.
 *
 * Both core files scan an attribute list with "the last attribute that carries
 * a field wins"; the functions here state that once, and both scanning loops
 * are proved against them.
 */
module Telegram {
  import opened Wrappers

  /**
   * One document attribute. Only two kinds carry fields the code reads: the
   * audio attribute (duration, title, performer, the last two possibly `None`)
   * and the file-name attribute. Every other kind (image size, video, sticker,
   * animated, ...) carries none of them.
   */
  datatype Attribute =
    | AudioAttr(duration: int, title: Option<string>, performer: Option<string>)
    | FilenameAttr(fileName: string)
    | OtherAttr

  datatype Document = Document(mimeType: string, size: int, attributes: seq<Attribute>)

  /** A message's media; `document` is absent for media that hold no document. */
  datatype Media = Media(document: Option<Document>)

  /**
   * A channel message as the client library presents it: `media` and its
   * document (read by the playlist tool), and the `audio` and `document`
   * shortcuts (read by the scraper). `date` is the already formatted timestamp.
   */
  datatype Message = Message(
    id: int,
    date: string,
    text: Option<string>,
    media: Option<Media>,
    audio: Option<Document>,
    document: Option<Document>)

  /** The last audio attribute of the list, if there is one. */
  function LastAudio(attrs: seq<Attribute>): (r: Option<Attribute>)
    ensures r.Some? ==> r.value.AudioAttr? && r.value in attrs
  {
    if attrs == [] then None
    else if attrs[|attrs| - 1].AudioAttr? then Some(attrs[|attrs| - 1])
    else LastAudio(attrs[..|attrs| - 1])
  }

  /** The file name of the last file-name attribute of the list, if there is one. */
  function LastFileName(attrs: seq<Attribute>): (r: Option<string>)
    ensures r.Some? ==> FilenameAttr(r.value) in attrs
    ensures r.None? ==> forall j :: 0 <= j < |attrs| ==> !attrs[j].FilenameAttr?
  {
    if attrs == [] then None
    else if attrs[|attrs| - 1].FilenameAttr? then Some(attrs[|attrs| - 1].fileName)
    else LastFileName(attrs[..|attrs| - 1])
  }

  /** The title the attribute scan settles on: that of the last audio attribute, `None` without one. */
  function TitleOf(attrs: seq<Attribute>): (r: Option<string>)
    ensures r.Some? ==> exists i :: 0 <= i < |attrs| && attrs[i].AudioAttr? && attrs[i].title == r
  {
    match LastAudio(attrs)
    case Some(a) => a.title
    case None => None
  }

  /** The performer the attribute scan settles on. */
  function PerformerOf(attrs: seq<Attribute>): (r: Option<string>)
    ensures r.Some? ==> exists i :: 0 <= i < |attrs| && attrs[i].AudioAttr? && attrs[i].performer == r
  {
    match LastAudio(attrs)
    case Some(a) => a.performer
    case None => None
  }

  /** The duration the attribute scan settles on. */
  function DurationOf(attrs: seq<Attribute>): Option<int> {
    match LastAudio(attrs)
    case Some(a) => Some(a.duration)
    case None => None
  }

  /** An audio attribute with no audio attribute after it is the one `LastAudio` picks. */
  lemma {:induction false} LastAudioIsLastCarrier(attrs: seq<Attribute>, i: nat)
    requires i < |attrs| && attrs[i].AudioAttr?
    requires forall j :: i < j < |attrs| ==> !attrs[j].AudioAttr?
    ensures LastAudio(attrs) == Some(attrs[i])
  {
    if i < |attrs| - 1 {
      LastAudioIsLastCarrier(attrs[..|attrs| - 1], i);
    }
  }

  /** `LastAudio` finds an attribute exactly when the list holds an audio attribute. */
  lemma {:induction false} LastAudioPresence(attrs: seq<Attribute>)
    ensures LastAudio(attrs).Some? <==> exists j :: 0 <= j < |attrs| && attrs[j].AudioAttr?
  {
    if attrs != [] && !attrs[|attrs| - 1].AudioAttr? {
      var init := attrs[..|attrs| - 1];
      LastAudioPresence(init);
      if exists j :: 0 <= j < |attrs| && attrs[j].AudioAttr? {
        var j :| 0 <= j < |attrs| && attrs[j].AudioAttr?;
        assert init[j].AudioAttr?;
      }
    }
  }

  /** A file-name attribute with no file-name attribute after it supplies the file name. */
  lemma {:induction false} LastFileNameIsLastCarrier(attrs: seq<Attribute>, i: nat)
    requires i < |attrs| && attrs[i].FilenameAttr?
    requires forall j :: i < j < |attrs| ==> !attrs[j].FilenameAttr?
    ensures LastFileName(attrs) == Some(attrs[i].fileName)
  {
    if i < |attrs| - 1 {
      LastFileNameIsLastCarrier(attrs[..|attrs| - 1], i);
    }
  }

  /** Without any file-name attribute the file name stays `None`. */
  lemma {:induction false} NoFileNameCarrier(attrs: seq<Attribute>)
    requires forall j :: 0 <= j < |attrs| ==> !attrs[j].FilenameAttr?
    ensures LastFileName(attrs) == None
  {
    if attrs != [] {
      NoFileNameCarrier(attrs[..|attrs| - 1]);
    }
  }
}

=== FILE: text.dfy ===
/**
 * The few Python string operations the scraper and the playlist code rely on:
 * truthiness of an optional string, `str.strip()`, `str.lower()`, the `in`
 * substring test, `str.join` and `str(int)`.
 */
module Text {
  import opened Wrappers

  /** Python truthiness of an `Optional[str]`: neither `None` nor the empty string. */
  predicate Truthy(s: Option<string>) {
    s.Some? && s.value != ""
  }

  // ---------------------------------------------------------------------------
  // str.strip()
  // ---------------------------------------------------------------------------

  /** The characters for which Python's `str.isspace()` holds. */
  predicate IsSpace(c: char) {
    || '\t' <= c <= '\r'
    || '\U{1C}' <= c <= '\U{1F}'
    || c == ' ' || c == '\U{85}' || c == '\U{A0}' || c == '\U{1680}'
    || '\U{2000}' <= c <= '\U{200A}'
    || c == '\U{2028}' || c == '\U{2029}' || c == '\U{202F}' || c == '\U{205F}' || c == '\U{3000}'
  }

  /** Drops the leading whitespace: the result is a suffix of `s` that starts with a non-space. */
  function TrimLeft(s: string): (r: string)
    ensures |r| <= |s| && r == s[|s| - |r|..]
    ensures forall i :: 0 <= i < |s| - |r| ==> IsSpace(s[i])
    ensures r != [] ==> !IsSpace(r[0])
  {
    if s != [] && IsSpace(s[0]) then TrimLeft(s[1..]) else s
  }

  /** Drops the trailing whitespace: the result is a prefix of `s` that ends with a non-space. */
  function TrimRight(s: string): (r: string)
    ensures |r| <= |s| && r == s[..|r|]
    ensures forall i :: |r| <= i < |s| ==> IsSpace(s[i])
    ensures r != [] ==> !IsSpace(r[|r| - 1])
  {
    if s != [] && IsSpace(s[|s| - 1]) then TrimRight(s[..|s| - 1]) else s
  }

  /** Python's `s.strip()` with no argument: a slice of `s` that neither starts nor ends with whitespace. */
  function Strip(s: string): (r: string)
    ensures |r| <= |s|
    ensures r != [] ==> !IsSpace(r[0]) && !IsSpace(r[|r| - 1])
  {
    TrimRight(TrimLeft(s))
  }

  /** The stripped string is empty exactly when every character of the input is whitespace. */
  lemma StripEmptyIff(s: string)
    ensures Strip(s) == [] <==> forall i :: 0 <= i < |s| ==> IsSpace(s[i])
  {
  }

  // ---------------------------------------------------------------------------
  // str.lower(), on the ASCII letters; upper-casing is only used to state that
  // the similarity score ignores case
  // ---------------------------------------------------------------------------

  function LowerChar(c: char): char {
    if 'A' <= c <= 'Z' then (c as int + 32) as char else c
  }

  function UpperChar(c: char): char {
    if 'a' <= c <= 'z' then (c as int - 32) as char else c
  }

  /** Python's `s.lower()`, restricted to the ASCII letters. */
  function Lower(s: string): (r: string)
    ensures |r| == |s|
    ensures forall i :: 0 <= i < |s| ==> r[i] == LowerChar(s[i])
  {
    if s == [] then [] else [LowerChar(s[0])] + Lower(s[1..])
  }

  /** Upper-casing of the ASCII letters. */
  function Upper(s: string): (r: string)
    ensures |r| == |s|
    ensures forall i :: 0 <= i < |s| ==> r[i] == UpperChar(s[i])
  {
    if s == [] then [] else [UpperChar(s[0])] + Upper(s[1..])
  }

  /** Lower-casing an already lower-cased string changes nothing. */
  lemma {:induction false} LowerIdempotent(s: string)
    ensures Lower(Lower(s)) == Lower(s)
  {
    if s != [] {
      LowerIdempotent(s[1..]);
      assert Lower(s)[1..] == Lower(s[1..]);
    }
  }

  /** Upper-casing first loses nothing that lower-casing keeps. */
  lemma {:induction false} LowerOfUpper(s: string)
    ensures Lower(Upper(s)) == Lower(s)
  {
    if s != [] {
      LowerOfUpper(s[1..]);
      assert Upper(s)[1..] == Upper(s[1..]);
    }
  }

  // ---------------------------------------------------------------------------
  // sub in s
  // ---------------------------------------------------------------------------

  predicate OccursAt(s: string, sub: string, i: nat) {
    i + |sub| <= |s| && s[i..i + |sub|] == sub
  }

  /** Python's `sub in s`: `sub` occurs somewhere in `s`, not necessarily at the start. */
  function Contains(s: string, sub: string): (b: bool)
    ensures b <==> exists i: nat :: OccursAt(s, sub, i)
    decreases |s|
  {
    if |s| < |sub| then false
    else if s[..|sub|] == sub then (assert OccursAt(s, sub, 0); true)
    else
      var b := Contains(s[1..], sub);
      assert b ==> exists i: nat :: OccursAt(s, sub, i) by {
        if b {
          var i: nat :| OccursAt(s[1..], sub, i);
          assert s[1..][i..i + |sub|] == s[i + 1..i + 1 + |sub|];
          assert OccursAt(s, sub, i + 1);
        }
      }
      assert (exists i: nat :: OccursAt(s, sub, i)) ==> b by {
        if exists i: nat :: OccursAt(s, sub, i) {
          var i: nat :| OccursAt(s, sub, i);
          assert i != 0;
          assert s[1..][i - 1..i - 1 + |sub|] == s[i..i + |sub|];
          assert OccursAt(s[1..], sub, i - 1);
        }
      }
      b
  }

  // ---------------------------------------------------------------------------
  // sep.join(parts)
  // ---------------------------------------------------------------------------

  /** Python's `sep.join(parts)`: it starts with the first part. */
  function Join(sep: string, parts: seq<string>): (r: string)
    ensures parts == [] ==> r == ""
    ensures parts != [] ==> |parts[0]| <= |r| && r[..|parts[0]|] == parts[0]
  {
    if |parts| == 0 then ""
    else if |parts| == 1 then parts[0]
    else parts[0] + sep + Join(sep, parts[1..])
  }

  /** Joining one more part appends the separator and that part: the parts appear in order. */
  lemma {:induction false} JoinSnoc(sep: string, parts: seq<string>, p: string)
    requires parts != []
    ensures Join(sep, parts + [p]) == Join(sep, parts) + sep + p
  {
    if |parts| > 1 {
      assert (parts + [p])[1..] == parts[1..] + [p];
      JoinSnoc(sep, parts[1..], p);
    }
  }

  // ---------------------------------------------------------------------------
  // str(n) for an int n
  // ---------------------------------------------------------------------------

  function DigitChar(d: nat): (c: char)
    requires d < 10
    ensures '0' <= c <= '9'
  {
    (d + '0' as int) as char
  }

  function DigitValue(c: char): nat {
    if '0' <= c <= '9' then c as int - '0' as int else 0
  }

  /** The decimal digits of `n`, without leading zeros. */
  function NatDigits(n: nat): (r: string)
    ensures r != []
    ensures forall i :: 0 <= i < |r| ==> '0' <= r[i] <= '9'
  {
    if n < 10 then [DigitChar(n)] else NatDigits(n / 10) + [DigitChar(n % 10)]
  }

  /** Python's `str(n)`. */
  function DecimalString(n: int): string {
    if n < 0 then "-" + NatDigits(-n) else NatDigits(n)
  }

  /** Python's `int(s)` on the strings `DecimalString` produces. */
  function ParseDigits(s: string): nat {
    if s == [] then 0 else ParseDigits(s[..|s| - 1]) * 10 + DigitValue(s[|s| - 1])
  }

  function ParseDecimal(s: string): int {
    if s != [] && s[0] == '-' then 0 - ParseDigits(s[1..]) as int else ParseDigits(s)
  }

  lemma {:induction false} NatDigitsRoundTrip(n: nat)
    ensures ParseDigits(NatDigits(n)) == n
  {
    if n >= 10 {
      NatDigitsRoundTrip(n / 10);
      var s := NatDigits(n);
      assert s[..|s| - 1] == NatDigits(n / 10);
    }
  }

  /** `int(str(n)) == n`. */
  lemma DecimalRoundTrip(n: int)
    ensures ParseDecimal(DecimalString(n)) == n
  {
    if n < 0 {
      NatDigitsRoundTrip(-n);
      assert DecimalString(n)[1..] == NatDigits(-n);
    } else {
      NatDigitsRoundTrip(n);
    }
  }

  /** Two ints have the same decimal string exactly when they are equal, so keying by `str(id)` is keying by `id`. */
  lemma DecimalInjective(a: int, b: int)
    ensures DecimalString(a) == DecimalString(b) <==> a == b
  {
    DecimalRoundTrip(a);
    DecimalRoundTrip(b);
  }
}

=== FILE: wrappers.dfy ===
/** Optional values: Python's `None` versus a present value. */
module Wrappers {
  datatype Option<+T> = None | Some(value: T)
}
